=== FILE: README.md ===
# System user provider — provisioning model

This project models the provisioning logic of the WebSight system user provider
(`SystemUserProviderImpl`). A client bundle supplies a system-user config: an id
and a map from repository path to privilege names. It asks for a resource
resolver for that user. On every call whose id is not in its `createdUsers`
cache, the provider:

1. creates the system user and commits; if the user already exists or creation
   fails, it stops here and the id stays uncached;
2. registers a service-user-mapper entry `<owner bundle>=<id>`;
3. adds one allow entry per configured path, and commits once;
4. remembers the id in its `createdUsers` cache.

The provider then always asks the caller's resolver factory for a resolver whose
subservice is the id.

The model is functional. `Provider(createdUsers, store)` holds the cache and an
abstract store. The store holds the users, the committed access-control list of
each path (its entries `(path, principal, privileges, allow)` in the order they
were added) and the registered mapping values. Each operation is a pure
function. The outcome of every external call is an input (`Outcomes`): user creation may fail at login, lookup, create or commit; the
mapping registration may fail; the ACL step may fail at login, at the entry with
a given index, or at commit. Each call also returns a log of the effects it
completed, in order, so that step order and "no setup step ran" can be stated.
The config's privilege map is a sequence, so its iteration order is explicit.

Modules:

- `Wrappers`: `Option`.
- `SystemUserConfig`: the config datatype.
- `Repository`: the abstract store, the log events and the fault inputs.
- `ServiceUserMapping`: the mapping value and its reading back.
- `SystemUserProviderImpl`: the provider's operations.
- `ProviderRuns`: properties across several calls.

The resolver factory is a function parameter. The call returns exactly what the
factory returns for the request, including a login failure. The owner bundle's
symbolic name is an explicit input.

For a user that already exists, `createServiceUser` returns false (lines
79-81): no mapping or ACL step runs and the id is not cached. If the ACL loop
throws, control leaves it before the commit on line 102, so nothing from that
ACL step is committed.

Properties across several calls (`ProviderRuns`) let another writer add or
remove users before each call.

## Model

| member | source | states |
|---|---|---|
| SystemUserProviderImpl.GetSystemUserResourceResolver | websight-system-user-provider-service/src/main/java/pl/ds/websight/system/user/provider/service/impl/SystemUserProviderImpl.java:54-64 | The result is the factory's answer for the auth info `{subservice: id}`, and the last logged effect is that request, whether setup was skipped, succeeded or failed. On a cache hit the provider and store are unchanged and nothing but the request is logged. The cache only grows, and only by the id. The id is newly cached exactly when it was absent from the store and creation succeeded. Every newly cached id was created in this call. Users are never lost, and the only user that can appear is the id. The log records one creation of exactly each user the store gained, and no other creation. "Every cached id is a store user" is preserved. |
| SystemUserProviderImpl.SetupSystemUser | websight-system-user-provider-service/src/main/java/pl/ds/websight/system/user/provider/service/impl/SystemUserProviderImpl.java:66-73 | If the user already exists or creation fails, nothing changes and nothing is logged. Otherwise the user is added and the id is cached, whatever the mapping and ACL steps do. The mapping is added unless registration fails. Each path's list gains the user's allow entries only when the ACL step commits. The log is exactly: created, then mapping (if registered), then ACL (if committed), then cached. |
| SystemUserProviderImpl.CreateServiceUser | websight-system-user-provider-service/src/main/java/pl/ds/websight/system/user/provider/service/impl/SystemUserProviderImpl.java:75-92 | Reports success if and only if the user was absent and login, lookup, create and commit all succeeded. Then the store gains exactly that user. Otherwise the store is unchanged. |
| SystemUserProviderImpl.CreateServiceMapperConfig | websight-system-user-provider-service/src/main/java/pl/ds/websight/system/user/provider/service/impl/SystemUserProviderImpl.java:116-126 | On success, appends exactly `owner + "=" + id` to the mappings and logs it. On failure, changes nothing. Users and ACL are never touched. |
| ServiceUserMapping.MappingValueRoundTrip | websight-system-user-provider-service/src/main/java/pl/ds/websight/system/user/provider/service/impl/SystemUserProviderImpl.java:121 | For a valid bundle symbolic name, splitting the registered value at its first '=' gives back exactly the owner and the user id. |
| SystemUserProviderImpl.AddAcl | websight-system-user-provider-service/src/main/java/pl/ds/websight/system/user/provider/service/impl/SystemUserProviderImpl.java:109-114 | Only the list at the given path changes: it gains exactly one allow entry for the user with the resolved privileges, at its end. Every other path's list is unchanged. |
| SystemUserProviderImpl.StageAcls | websight-system-user-provider-service/src/main/java/pl/ds/websight/system/user/provider/service/impl/SystemUserProviderImpl.java:97-100 | The loop gives up if and only if the faulting index is one it reaches. Otherwise each path's list gains exactly the allow entries of the config entries on that path, in iteration order, taken from the reference `AllowEntries`. |
| SystemUserProviderImpl.SetupAcl | websight-system-user-provider-service/src/main/java/pl/ds/websight/system/user/provider/service/impl/SystemUserProviderImpl.java:94-107 | Each path's committed list gains exactly the user's allow entries for that path, in iteration order, if and only if: login succeeded, no entry failed, at least one entry was staged, and the commit succeeded. Otherwise the store is unchanged and nothing is logged. Users and mappings are never touched. |
| ProviderRuns.RunCacheMonotone | websight-system-user-provider-service/src/main/java/pl/ds/websight/system/user/provider/service/impl/SystemUserProviderImpl.java:52-71 | Over any sequence of calls, whatever other writers do to the users, the cache never loses an id. It only gains ids that some call asked for. |
| ProviderRuns.RunCachesOnlyCreatedUsers | websight-system-user-provider-service/src/main/java/pl/ds/websight/system/user/provider/service/impl/SystemUserProviderImpl.java:66-86 | Over any sequence of calls, whatever other writers do to the users, every id that enters the cache had its creation recorded in that run. |
| ProviderRuns.RunNeverRecreatesCachedUser | websight-system-user-provider-service/src/main/java/pl/ds/websight/system/user/provider/service/impl/SystemUserProviderImpl.java:58-60 | Over any sequence of calls, whatever other writers do, no cached id is ever created again. So a cached user that another writer deletes stays deleted. |
| ProviderRuns.RunPreservesConsistency | websight-system-user-provider-service/src/main/java/pl/ds/websight/system/user/provider/service/impl/SystemUserProviderImpl.java:66-86 | If every cached id names a store user before a sequence of calls in which no other writer deletes users, the same holds after it. |
| ProviderRuns.RunUsersAreInitialPlusCreated | websight-system-user-provider-service/src/main/java/pl/ds/websight/system/user/provider/service/impl/SystemUserProviderImpl.java:78-86 | After any sequence of calls in which no other writer deletes users, the store's users are exactly the initial users, plus those other writers added, plus those the run created. |
| ProviderRuns.RunCreatesEachUserAtMostOnce | websight-system-user-provider-service/src/main/java/pl/ds/websight/system/user/provider/service/impl/SystemUserProviderImpl.java:58-86 | In any single-threaded run, whatever other writers do to the users, no user is created twice, and no id cached at the start is created at all. A creation caches the id in the same call, and a cached id is never set up again. |
| ProviderRuns.RunNeverCreatesExistingUser | websight-system-user-provider-service/src/main/java/pl/ds/websight/system/user/provider/service/impl/SystemUserProviderImpl.java:78-81 | In a run in which no other writer deletes users, no user the store held at the start is created. |
| ProviderRuns.ExistingUserIsNotCached | websight-system-user-provider-service/src/main/java/pl/ds/websight/system/user/provider/service/impl/SystemUserProviderImpl.java:68-81 | For an uncached id whose user already exists, the call changes nothing. It logs only the resolver request and leaves the id uncached, so the next call queries the store again. |
| ProviderRuns.CreationFailureIsRetried | websight-system-user-provider-service/src/main/java/pl/ds/websight/system/user/provider/service/impl/SystemUserProviderImpl.java:68-91 | A failed creation leaves the provider and store unchanged. A later call whose creation succeeds creates the user first and caches it. |
| ProviderRuns.CachedUserIsNotSetUpAgain | websight-system-user-provider-service/src/main/java/pl/ds/websight/system/user/provider/service/impl/SystemUserProviderImpl.java:58-63 | After a call that created and cached the id, any later call for it, whatever its outcomes, changes nothing and only requests the resolver. |
| ProviderRuns.MappingFailureDoesNotBlockAcl | websight-system-user-provider-service/src/main/java/pl/ds/websight/system/user/provider/service/impl/SystemUserProviderImpl.java:68-71 | When creation succeeds and mapping registration fails, the ACL entries are still committed and the id is still cached. The log is: created, ACL committed, cached, resolver requested. |
| ProviderRuns.ReaderScenario | websight-system-user-provider-service/src/main/java/pl/ds/websight/system/user/provider/service/impl/SystemUserProviderImpl.java:57-71 | Config `svc-reader` with `jcr:read` on `/content`, starting from an empty store. The first call creates the user, registers `owner.bundle=svc-reader`, commits the allow entry and caches the id. The second call changes nothing. |

## Left out

- Repository, user-manager, access-control-manager, configuration-admin and resolver-factory internals: these are replaced by the abstract store and fault inputs. The rollback of uncommitted changes when a resolver closes is taken as "uncommitted changes never reach the store".
- Privilege-name resolution: the resolved privileges are the configured names. An unknown name is an `EntryFault` at that entry's index.
- How an access-control list merges a new entry with existing ones: an allow entry is appended to the end of its path's list.
- `hasChanges()`: abstracted as "at least one entry was staged".
- The owner bundle lookup through the OSGi framework (line 118): the symbolic name is an input. A config class outside any bundle would give a null bundle and an uncaught exception, which is not modelled.
- Unchecked exceptions (a null privileges map, a null access-control list): only the checked exceptions that `createServiceUser`, `setupAcl` and `createServiceMapperConfig` catch are modelled as faults.
- The factory's own behaviour, such as resolving the subservice through the registered mapping: the factory is an opaque function parameter.
- Logging and releasing resolvers at the end of try-with-resources: no observable logic.
- ProviderRuns.RunPreservesConsistency, ProviderRuns.RunUsersAreInitialPlusCreated, ProviderRuns.RunNeverCreatesExistingUser: these hold only when no other writer deletes users between calls. With deletions they fail: a deleted user that was never cached is created again, and a deleted cached user is never recreated (`RunNeverRecreatesCachedUser`). No user is created twice even with deletions (`RunCreatesEachUserAtMostOnce`).
- Changes other writers make to access-control lists or mapping configurations between calls: no run property depends on them.
- Thread safety: `createdUsers` is an unsynchronised `HashSet`. The model covers single-threaded calls only, and `RunCreatesEachUserAtMostOnce` makes no claim about concurrent calls.
- `SystemUserProvider.java` and `SystemUserConfig.java` are interfaces without logic. They appear only as the signature of `GetSystemUserResourceResolver` and the `Config` datatype.

=== FILE: provider_runs.dfy ===
/**
 Properties of getSystemUserResourceResolver across several calls on one provider:
 what a failed creation, an existing user and the cache mean for the calls that
 follow, and invariants of any sequence of calls, with other writers free to
 change the user store between calls.
 */
module ProviderRuns {
  import opened Wrappers
  import opened SystemUserConfig
  import opened Repository
  import opened ServiceUserMapping
  import opened SystemUserProviderImpl

  /**
   One call: the change other writers made to the user store since the previous
   call, the config, the symbolic name of the bundle that owns it, and the
   external outcomes.
   */
  datatype Request = Request(before: StoreChange, config: Config, ownerSymbolicName: string, outcomes: Outcomes)

  /** The provider after a sequence of calls, and the concatenation of their logs. */
  datatype History = History(provider: Provider, log: seq<Event>)

  /**
   A sequence of calls on one provider. Each caller passes its own resolver
   factory; a single `factory` stands for all of them here, since no property of
   a run depends on the resolver a call returns.
   */
  function Run<H>(p: Provider, factory: map<string, string> -> H, requests: seq<Request>): History
    decreases |requests|
  {
    if |requests| == 0 then History(p, [])
    else
      var q := requests[0];
      var changed := p.(store := ApplyChange(p.store, q.before));
      var first := GetSystemUserResourceResolver(changed, factory, q.config, q.ownerSymbolicName, q.outcomes);
      var rest := Run(first.provider, factory, requests[1..]);
      History(rest.provider, first.log + rest.log)
  }

  /** The ids the requests of a run ask for. */
  function RequestedIds(requests: seq<Request>): (ids: set<string>)
    ensures forall i :: 0 <= i < |requests| ==> requests[i].config.systemUserId in ids
  {
    set i | 0 <= i < |requests| :: requests[i].config.systemUserId
  }

  /** The users other writers add during a run. */
  function AddedUsers(requests: seq<Request>): set<string>
    decreases |requests|
  {
    if |requests| == 0 then {} else requests[0].before.addedUsers + AddedUsers(requests[1..])
  }

  /** No other writer deletes a user during the run. */
  predicate RemovesNoUsers(requests: seq<Request>) {
    forall i :: 0 <= i < |requests| ==> requests[i].before.removedUsers == {}
  }

  /** The cache never loses an id, and only gains ids some call asked for. */
  lemma {:induction false} RunCacheMonotone<H>(p: Provider, factory: map<string, string> -> H, requests: seq<Request>)
    ensures p.createdUsers <= Run(p, factory, requests).provider.createdUsers
    ensures Run(p, factory, requests).provider.createdUsers <= p.createdUsers + RequestedIds(requests)
    decreases |requests|
  {
    if |requests| > 0 {
      var q := requests[0];
      var changed := p.(store := ApplyChange(p.store, q.before));
      var first := GetSystemUserResourceResolver(changed, factory, q.config, q.ownerSymbolicName, q.outcomes);
      RunCacheMonotone(first.provider, factory, requests[1..]);
      assert RequestedIds(requests[1..]) <= RequestedIds(requests) by {
        forall x | x in RequestedIds(requests[1..]) ensures x in RequestedIds(requests) {
          var i :| 0 <= i < |requests[1..]| && requests[1..][i].config.systemUserId == x;
          assert requests[i + 1].config.systemUserId == x;
        }
      }
    }
  }

  /** An id enters the cache only in a run whose log records that id's creation. */
  lemma {:induction false} RunCachesOnlyCreatedUsers<H>(p: Provider, factory: map<string, string> -> H, requests: seq<Request>)
    ensures forall x :: x in Run(p, factory, requests).provider.createdUsers ==>
      x in p.createdUsers || CreationCount(Run(p, factory, requests).log, x) > 0
    decreases |requests|
  {
    if |requests| > 0 {
      var q := requests[0];
      var changed := p.(store := ApplyChange(p.store, q.before));
      var first := GetSystemUserResourceResolver(changed, factory, q.config, q.ownerSymbolicName, q.outcomes);
      var rest := Run(first.provider, factory, requests[1..]);
      RunCachesOnlyCreatedUsers(first.provider, factory, requests[1..]);
      CreationCountAppend(first.log, rest.log);
    }
  }

  /**
   A cached id is never created again, whatever other writers do: a cached user
   that another writer deletes stays deleted, since every later call for it is a
   cache hit.
   */
  lemma {:induction false} RunNeverRecreatesCachedUser<H>(p: Provider, factory: map<string, string> -> H, requests: seq<Request>)
    ensures forall x :: x in p.createdUsers ==> CreationCount(Run(p, factory, requests).log, x) == 0
    decreases |requests|
  {
    if |requests| > 0 {
      var q := requests[0];
      var changed := p.(store := ApplyChange(p.store, q.before));
      var first := GetSystemUserResourceResolver(changed, factory, q.config, q.ownerSymbolicName, q.outcomes);
      var rest := Run(first.provider, factory, requests[1..]);
      RunNeverRecreatesCachedUser(first.provider, factory, requests[1..]);
      CreationCountAppend(first.log, rest.log);
    }
  }

  lemma RemovesNoUsersTail(requests: seq<Request>)
    requires |requests| > 0 && RemovesNoUsers(requests)
    ensures requests[0].before.removedUsers == {} && RemovesNoUsers(requests[1..])
  {
  }

  /**
   Every cached id names a user of the store, before and after any run in which
   no other writer deletes users.
   */
  lemma {:induction false} RunPreservesConsistency<H>(p: Provider, factory: map<string, string> -> H, requests: seq<Request>)
    requires Consistent(p) && RemovesNoUsers(requests)
    ensures Consistent(Run(p, factory, requests).provider)
    decreases |requests|
  {
    if |requests| > 0 {
      var q := requests[0];
      RemovesNoUsersTail(requests);
      var changed := p.(store := ApplyChange(p.store, q.before));
      var first := GetSystemUserResourceResolver(changed, factory, q.config, q.ownerSymbolicName, q.outcomes);
      RunPreservesConsistency(first.provider, factory, requests[1..]);
    }
  }

  /**
   When no other writer deletes users, a run's store ends with exactly the users
   it started with, plus those other writers added, plus those the run's log
   records as created.
   */
  lemma {:induction false} RunUsersAreInitialPlusCreated<H>(p: Provider, factory: map<string, string> -> H, requests: seq<Request>)
    requires RemovesNoUsers(requests)
    ensures forall x :: (x in Run(p, factory, requests).provider.store.users
                         <==> x in p.store.users || x in AddedUsers(requests)
                              || CreationCount(Run(p, factory, requests).log, x) > 0)
    decreases |requests|
  {
    if |requests| > 0 {
      var q := requests[0];
      RemovesNoUsersTail(requests);
      var changed := p.(store := ApplyChange(p.store, q.before));
      var first := GetSystemUserResourceResolver(changed, factory, q.config, q.ownerSymbolicName, q.outcomes);
      var rest := Run(first.provider, factory, requests[1..]);
      RunUsersAreInitialPlusCreated(first.provider, factory, requests[1..]);
      CreationCountAppend(first.log, rest.log);
    }
  }

  /**
   In any single-threaded run, whatever other writers do, a user is created at
   most once, and not at all when its id was cached at the start: a creation
   caches the id in the same call, and a cached id is never set up again.
   */
  lemma {:induction false} RunCreatesEachUserAtMostOnce<H>(p: Provider, factory: map<string, string> -> H, requests: seq<Request>)
    ensures forall x :: CreationCount(Run(p, factory, requests).log, x) <= if x in p.createdUsers then 0 else 1
    decreases |requests|
  {
    if |requests| > 0 {
      var q := requests[0];
      var changed := p.(store := ApplyChange(p.store, q.before));
      var first := GetSystemUserResourceResolver(changed, factory, q.config, q.ownerSymbolicName, q.outcomes);
      var rest := Run(first.provider, factory, requests[1..]);
      RunCreatesEachUserAtMostOnce(first.provider, factory, requests[1..]);
      CreationCountAppend(first.log, rest.log);
    }
  }

  /** In a run in which no other writer deletes users, no user the store held at the start is created. */
  lemma {:induction false} RunNeverCreatesExistingUser<H>(p: Provider, factory: map<string, string> -> H, requests: seq<Request>)
    requires RemovesNoUsers(requests)
    ensures forall x :: x in p.store.users ==> CreationCount(Run(p, factory, requests).log, x) == 0
    decreases |requests|
  {
    if |requests| > 0 {
      var q := requests[0];
      RemovesNoUsersTail(requests);
      var changed := p.(store := ApplyChange(p.store, q.before));
      var first := GetSystemUserResourceResolver(changed, factory, q.config, q.ownerSymbolicName, q.outcomes);
      var rest := Run(first.provider, factory, requests[1..]);
      RunNeverCreatesExistingUser(first.provider, factory, requests[1..]);
      CreationCountAppend(first.log, rest.log);
    }
  }

  /**
   An existing user is not touched and not cached: the call only requests the
   resolver, so the next call for the id consults the store again.
   */
  lemma ExistingUserIsNotCached<H>(
    p: Provider, factory: map<string, string> -> H, config: Config, ownerSymbolicName: string, o: Outcomes
  )
    requires config.systemUserId !in p.createdUsers && config.systemUserId in p.store.users
    ensures var r := GetSystemUserResourceResolver(p, factory, config, ownerSymbolicName, o);
      && r.provider == p
      && r.log == [ResolverRequested(map[SUBSERVICE := config.systemUserId])]
      && config.systemUserId !in r.provider.createdUsers
  {
  }

  /**
   A failed creation leaves provider and store as they were; a later call whose
   creation succeeds creates and caches the user.
   */
  lemma CreationFailureIsRetried<H>(
    p: Provider, factory: map<string, string> -> H, config: Config, ownerSymbolicName: string,
    failed: Outcomes, retry: Outcomes
  )
    requires config.systemUserId !in p.createdUsers && config.systemUserId !in p.store.users
    requires failed.user != NoUserFault && retry.user == NoUserFault
    ensures var r1 := GetSystemUserResourceResolver(p, factory, config, ownerSymbolicName, failed);
      var r2 := GetSystemUserResourceResolver(r1.provider, factory, config, ownerSymbolicName, retry);
      && r1.provider == p
      && r2.log[0] == UserCreated(config.systemUserId)
      && config.systemUserId in r2.provider.createdUsers
      && config.systemUserId in r2.provider.store.users
  {
  }

  /**
   Once a call has cached the id, every later call for it, whatever the outcomes
   would have been, leaves the provider as it is and only requests the resolver.
   */
  lemma CachedUserIsNotSetUpAgain<H>(
    p: Provider, factory: map<string, string> -> H, config: Config, ownerSymbolicName: string,
    first: Outcomes, later: Outcomes
  )
    requires config.systemUserId !in p.createdUsers && config.systemUserId !in p.store.users
    requires first.user == NoUserFault
    ensures var r1 := GetSystemUserResourceResolver(p, factory, config, ownerSymbolicName, first);
      var r2 := GetSystemUserResourceResolver(r1.provider, factory, config, ownerSymbolicName, later);
      && r2.provider == r1.provider
      && r2.log == [ResolverRequested(map[SUBSERVICE := config.systemUserId])]
  {
  }

  /**
   The mapping and ACL steps neither block each other nor the cache: after a
   successful creation the id is cached whatever they did, and a mapping failure
   does not stop the ACL entries from being committed.
   */
  lemma MappingFailureDoesNotBlockAcl<H>(
    p: Provider, factory: map<string, string> -> H, config: Config, ownerSymbolicName: string, o: Outcomes
  )
    requires config.systemUserId !in p.createdUsers && config.systemUserId !in p.store.users
    requires o.user == NoUserFault && o.mappingFails && AclCommits(config, o.acl)
    ensures var r := GetSystemUserResourceResolver(p, factory, config, ownerSymbolicName, o);
      var id := config.systemUserId;
      && r.log == [UserCreated(id), AclCommitted(AllowEntries(id, config.privileges)), UserCached(id),
                   ResolverRequested(map[SUBSERVICE := id])]
      && r.provider.store.mappings == p.store.mappings
      && (forall q :: AclAt(r.provider.store.acl, q)
                      == AclAt(p.store.acl, q) + EntriesAt(AllowEntries(id, config.privileges), q))
      && id in r.provider.createdUsers
  {
  }

  /** The ACL step of `ReaderScenario`: one allow entry on /content is staged and committed. */
  lemma ReaderAclStep(store: Store)
    requires store.acl == map[]
    ensures SetupAcl(store, Config("svc-reader", [PathPrivileges("/content", ["jcr:read"])]), NoAclFault).store
            == store.(acl := map["/content" := [Ace("/content", "svc-reader", ["jcr:read"], true)]])
  {
    var ace := Ace("/content", "svc-reader", ["jcr:read"], true);
    assert AclAt(map[], "/content") == [];
    assert [] + [ace] == [ace];
    assert AddAcl(map[], "svc-reader", "/content", ["jcr:read"]) == map["/content" := [ace]];
    assert StageAcls(map[], "svc-reader", [PathPrivileges("/content", ["jcr:read"])], NoAclFault, 0)
           == Some(map["/content" := [ace]]);
  }

  /** The first call of `ReaderScenario`: from an empty store, the reader user is fully provisioned. */
  lemma ReaderFirstCall<H>(factory: map<string, string> -> H)
    ensures var config := Config("svc-reader", [PathPrivileges("/content", ["jcr:read"])]);
      var r1 := GetSystemUserResourceResolver(Provider({}, Store({}, map[], [])), factory, config,
                                              "owner.bundle", Outcomes(NoUserFault, false, NoAclFault));
      r1.provider == Provider({"svc-reader"},
        Store({"svc-reader"}, map["/content" := [Ace("/content", "svc-reader", ["jcr:read"], true)]],
              ["owner.bundle=svc-reader"]))
  {
    assert MappingValue("owner.bundle", "svc-reader") == "owner.bundle=svc-reader";
    ReaderAclStep(Store({"svc-reader"}, map[], ["owner.bundle=svc-reader"]));
  }

  /** One config entry, read access on /content: the first call provisions, the second only asks for a resolver. */
  lemma ReaderScenario<H>(factory: map<string, string> -> H)
    ensures var config := Config("svc-reader", [PathPrivileges("/content", ["jcr:read"])]);
      var ok := Outcomes(NoUserFault, false, NoAclFault);
      var p0 := Provider({}, Store({}, map[], []));
      var r1 := GetSystemUserResourceResolver(p0, factory, config, "owner.bundle", ok);
      var r2 := GetSystemUserResourceResolver(r1.provider, factory, config, "owner.bundle", ok);
      && r1.provider == Provider({"svc-reader"},
           Store({"svc-reader"}, map["/content" := [Ace("/content", "svc-reader", ["jcr:read"], true)]],
                 ["owner.bundle=svc-reader"]))
      && r2.provider == r1.provider
      && r2.resolver == factory(map[SUBSERVICE := "svc-reader"])
  {
    ReaderFirstCall(factory);
  }
}

=== FILE: repository.dfy ===
/**
 The abstract external world the provider acts on: the user store, the committed
 access-control entries and the service-user-mapping configurations, plus the
 outcomes of the external calls, which the model takes as inputs instead of
 simulating the repository and the configuration admin.
 */
module Repository {

  /** An access-control entry: on `path`, `principal` is allowed (or denied) `privileges`. */
  datatype Ace = Ace(path: string, principal: string, privileges: seq<string>, allow: bool)

  /** The access-control list of every path that has one, its entries in the order they were added. */
  type Acls = map<string, seq<Ace>>

  /**
   users:    ids of the authorizables the user manager knows;
   acl:      the committed access-control list of each path;
   mappings: user.mapping values of the amended service-user-mapper configurations.
   */
  datatype Store = Store(users: set<string>, acl: Acls, mappings: seq<string>)

  /** The entries of the list at `path`; a path without a list has none. */
  function AclAt(acls: Acls, path: string): seq<Ace> {
    if path in acls then acls[path] else []
  }

  /** The entries of `aces` that are on `path`, in order. */
  function EntriesAt(aces: seq<Ace>, path: string): (r: seq<Ace>)
    ensures |r| <= |aces|
    ensures forall i :: 0 <= i < |r| ==> r[i].path == path && r[i] in aces
  {
    if |aces| == 0 then []
    else (if aces[0].path == path then [aces[0]] else []) + EntriesAt(aces[1..], path)
  }

  /** A change another writer makes to the user store between two calls of the provider. */
  datatype StoreChange = StoreChange(removedUsers: set<string>, addedUsers: set<string>)

  function ApplyChange(store: Store, change: StoreChange): (r: Store)
    ensures r.acl == store.acl && r.mappings == store.mappings
    ensures forall x :: x in r.users <==> x in change.addedUsers || (x in store.users && x !in change.removedUsers)
  {
    store.(users := store.users - change.removedUsers + change.addedUsers)
  }

  /** Effects the provider completed, in the order it completed them. */
  datatype Event =
    | UserCreated(userId: string)
    | MappingRegistered(mapping: string)
    | AclCommitted(entries: seq<Ace>)
    | UserCached(userId: string)
    | ResolverRequested(authInfo: map<string, string>)

  /** How the external calls of user creation end. */
  datatype UserFault =
    | NoUserFault
    | LoginFault     // the administrative resolver cannot be obtained
    | LookupFault    // looking the user up throws
    | CreateFault    // creating the system user throws
    | CommitFault    // committing the new user throws

  /** How the external calls of the ACL step end. */
  datatype AclFault =
    | NoAclFault
    | AclLoginFault              // the administrative resolver cannot be obtained
    | EntryFault(entry: nat)     // resolving privileges or writing the policy of the entry at this index throws
    | AclCommitFault             // the final commit throws

  /** The outcomes of every external call one invocation may make. */
  datatype Outcomes = Outcomes(user: UserFault, mappingFails: bool, acl: AclFault)

  /** How many times a log records the creation of `userId`. */
  function CreationCount(log: seq<Event>, userId: string): nat
  {
    if |log| == 0 then 0
    else (if log[0] == UserCreated(userId) then 1 else 0) + CreationCount(log[1..], userId)
  }

  lemma CreationCountSingleton(e: Event)
    ensures forall userId :: CreationCount([e], userId) == if e == UserCreated(userId) then 1 else 0
  {
  }

  lemma {:induction false} CreationCountAppend(a: seq<Event>, b: seq<Event>)
    ensures forall userId :: CreationCount(a + b, userId) == CreationCount(a, userId) + CreationCount(b, userId)
  {
    if |a| == 0 {
      assert a + b == b;
    } else {
      assert (a + b)[1..] == a[1..] + b;
      CreationCountAppend(a[1..], b);
    }
  }
}

=== FILE: service_user_mapping.dfy ===
/**
 The value the provider writes into an amended service-user-mapper configuration:
 `<owner bundle symbolic name>=<system user id>`, which maps every service of the
 owner bundle to the system user.
 */
module ServiceUserMapping {
  import opened Wrappers

  /** The characters the OSGi symbolic-name grammar allows: alphanumerics, '_', '-' and the '.' separator. */
  predicate SymbolicNameChar(c: char) {
    ('a' <= c <= 'z') || ('A' <= c <= 'Z') || ('0' <= c <= '9') || c == '_' || c == '-' || c == '.'
  }

  /** A bundle symbolic name: non-empty and made of the characters the grammar allows. */
  predicate IsSymbolicName(s: string) {
    |s| > 0 && forall i :: 0 <= i < |s| ==> SymbolicNameChar(s[i])
  }

  /** The user.mapping value registered for an owner bundle and a system user. */
  function MappingValue(ownerSymbolicName: string, systemUserId: string): string {
    ownerSymbolicName + "=" + systemUserId
  }

  /** Index of the first occurrence of `c` in `s`. */
  function IndexOf(s: string, c: char): (r: Option<nat>)
    ensures r.None? <==> c !in s
    ensures r.Some? ==> r.value < |s| && s[r.value] == c && c !in s[..r.value]
  {
    if |s| == 0 then None
    else if s[0] == c then Some(0)
    else
      match IndexOf(s[1..], c)
      case None => None
      case Some(i) =>
        assert s[..i + 1] == [s[0]] + s[1..][..i];
        Some(i + 1)
  }

  /** Reads a mapping value back: the service name before the first '=', the user after it. */
  function SplitMapping(value: string): (r: Option<(string, string)>)
    ensures r.None? <==> '=' !in value
    ensures r.Some? ==> value == r.value.0 + "=" + r.value.1 && '=' !in r.value.0
  {
    match IndexOf(value, '=')
    case None => None
    case Some(i) =>
      assert value == value[..i] + "=" + value[i + 1..];
      Some((value[..i], value[i + 1..]))
  }

  /** The registered value names exactly its owner bundle and its system user. */
  lemma MappingValueRoundTrip(ownerSymbolicName: string, systemUserId: string)
    requires IsSymbolicName(ownerSymbolicName)
    ensures SplitMapping(MappingValue(ownerSymbolicName, systemUserId)) == Some((ownerSymbolicName, systemUserId))
  {
    var v := MappingValue(ownerSymbolicName, systemUserId);
    var n := |ownerSymbolicName|;
    assert v[..n] == ownerSymbolicName;
    assert v[n] == '=';
    assert '=' !in ownerSymbolicName by {
      forall i | 0 <= i < n ensures ownerSymbolicName[i] != '=' {
        assert SymbolicNameChar(ownerSymbolicName[i]);
      }
    }
    var r := SplitMapping(v);
    assert r.Some?;
    var k := |r.value.0|;
    assert v[k] == '=' && v[..k] == r.value.0;
    assert k == n;
    assert v[n + 1..] == systemUserId;
  }
}

=== FILE: system_user_config.dfy ===
/**
 The declarative input a client bundle supplies: the id of the system user and,
 for each repository path, the names of the privileges to grant on it.
 `getPrivileges` returns a `Map`; here the privileges are a sequence of entries so
 that the map's iteration order, which decides the order ACL entries are applied
 in, is explicit.
 */
module SystemUserConfig {

  /** One entry of the privileges map: a path and the privilege names (e.g. jcr:read) to allow on it. */
  datatype PathPrivileges = PathPrivileges(path: string, privilegeNames: seq<string>)

  datatype Config = Config(systemUserId: string, privileges: seq<PathPrivileges>)
}

=== FILE: system_user_provider.dfy ===
/**
 SystemUserProviderImpl: hands out a resource resolver for a configured system user.
 On every call whose id is not in the createdUsers cache it first tries to create
 the user. Only when creation succeeds (the user was absent and every step of the
 creation went through) does it register a service-user mapping for the owner
 bundle, apply the configured allow entries and cache the id; an existing user or
 a failed creation leaves the id uncached, so the next call tries again.

 The administrative resolvers opened for the repository and the calls into the
 configuration admin are replaced by the abstract `Store` and by the `Outcomes`
 the caller supplies. The caller's resolver factory is the function parameter
 `factory`.
 */
module SystemUserProviderImpl {
  import opened Wrappers
  import opened SystemUserConfig
  import opened Repository
  import opened ServiceUserMapping

  /** The authentication-info key naming the subservice (Sling's ResourceResolverFactory.SUBSERVICE). */
  const SUBSERVICE: string := "sling.service.subservice"

  /** The provider's own state (the createdUsers cache) together with the external store it acts on. */
  datatype Provider = Provider(createdUsers: set<string>, store: Store)

  /** Result of the user-creation step: whether it reports success, and the store and log after it. */
  datatype Creation = Creation(created: bool, store: Store, log: seq<Event>)

  /** Result of a step that cannot fail towards its caller. */
  datatype Effect = Effect(store: Store, log: seq<Event>)

  /** Provider and log after the setup part of a call. */
  datatype Setup = Setup(provider: Provider, log: seq<Event>)

  /** Everything one call of getSystemUserResourceResolver produces. */
  datatype Invocation<H> = Invocation(provider: Provider, log: seq<Event>, resolver: H)

  /** Every cached id names a user the store holds. */
  predicate Consistent(p: Provider) {
    p.createdUsers <= p.store.users
  }

  /**
   createServiceUser: reports success exactly when the user was absent and both the
   creation and its commit succeeded; only then does the store gain the user.
   */
  function CreateServiceUser(store: Store, userId: string, fault: UserFault): (r: Creation)
    ensures r.created <==> userId !in store.users && fault == NoUserFault
    ensures r.created ==> r.store == store.(users := store.users + {userId}) && r.log == [UserCreated(userId)]
    ensures !r.created ==> r.store == store && r.log == []
  {
    match fault
    case LoginFault => Creation(false, store, [])
    case LookupFault => Creation(false, store, [])
    case _ =>
      if userId in store.users then
        Creation(false, store, [])   // already exists: nothing to create
      else if fault == NoUserFault then
        Creation(true, store.(users := store.users + {userId}), [UserCreated(userId)])
      else
        Creation(false, store, [])   // creation or commit threw: nothing persisted
  }

  /**
   createServiceMapperConfig: registers `<owner>=<id>`; a failure of the
   configuration admin is absorbed and leaves everything as it was.
   */
  function CreateServiceMapperConfig(store: Store, ownerSymbolicName: string, userId: string, fails: bool): (r: Effect)
    ensures r.store.users == store.users && r.store.acl == store.acl
    ensures fails ==> r.store == store && r.log == []
    ensures !fails ==> r.store.mappings == store.mappings + [MappingValue(ownerSymbolicName, userId)]
    ensures !fails ==> r.log == [MappingRegistered(MappingValue(ownerSymbolicName, userId))]
  {
    if fails then Effect(store, [])
    else
      var value := MappingValue(ownerSymbolicName, userId);
      Effect(store.(mappings := store.mappings + [value]), [MappingRegistered(value)])
  }

  /** The allow entry a config entry asks for: the user gets the entry's privileges on its path. */
  function AllowEntry(userId: string, entry: PathPrivileges): Ace {
    Ace(entry.path, userId, entry.privilegeNames, true)
  }

  /** Reference definition: one allow entry per config entry, in iteration order. */
  function AllowEntries(userId: string, entries: seq<PathPrivileges>): (aces: seq<Ace>)
    ensures |aces| == |entries|
  {
    seq(|entries|, i requires 0 <= i < |entries| => AllowEntry(userId, entries[i]))
  }

  /**
   addAcl: sets the policy at `path` to its list extended by an allow entry for
   the user with the resolved privileges; the list of every other path is untouched.
   */
  function AddAcl(acls: Acls, userId: string, path: string, privileges: seq<string>): (r: Acls)
    ensures r.Keys == acls.Keys + {path}
    ensures forall q :: q != path ==> AclAt(r, q) == AclAt(acls, q)
    ensures AclAt(r, path) == AclAt(acls, path) + [Ace(path, userId, privileges, true)]
  {
    acls[path := AclAt(acls, path) + [Ace(path, userId, privileges, true)]]
  }

  /**
   The loop of setupAcl from iteration index `index` on, applied to the session's
   lists `acls`: adds one allow entry per config entry, or gives None when the
   entry at the faulting index throws, which abandons the remaining entries.
   */
  function StageAcls(acls: Acls, userId: string, entries: seq<PathPrivileges>, fault: AclFault, index: nat)
    : (r: Option<Acls>)
    ensures r.None? <==> fault.EntryFault? && index <= fault.entry < index + |entries|
    ensures r.Some? ==>
      forall q :: AclAt(r.value, q) == AclAt(acls, q) + EntriesAt(AllowEntries(userId, entries), q)
    decreases |entries|
  {
    if |entries| == 0 then Some(acls)
    else if fault == EntryFault(index) then None
    else
      var next := AddAcl(acls, userId, entries[0].path, entries[0].privilegeNames);
      var r := StageAcls(next, userId, entries[1..], fault, index + 1);
      StageCompose(acls, userId, entries, r);
      r
  }

  /**
   One loop iteration followed by the rest of the loop: if the rest adds, on each
   path, the allow entries of the remaining config entries to the list extended
   by the first entry, then together they add those of all the entries.
   */
  lemma StageCompose(acls: Acls, userId: string, entries: seq<PathPrivileges>, rest: Option<Acls>)
    requires |entries| > 0
    requires var next := AddAcl(acls, userId, entries[0].path, entries[0].privilegeNames);
      rest.Some? ==>
        forall q :: AclAt(rest.value, q) == AclAt(next, q) + EntriesAt(AllowEntries(userId, entries[1..]), q)
    ensures rest.Some? ==>
      forall q :: AclAt(rest.value, q) == AclAt(acls, q) + EntriesAt(AllowEntries(userId, entries), q)
  {
    if rest.Some? {
      var next := AddAcl(acls, userId, entries[0].path, entries[0].privilegeNames);
      StageStep(userId, entries);
      forall q ensures AclAt(rest.value, q) == AclAt(acls, q) + EntriesAt(AllowEntries(userId, entries), q) {
        var tail := EntriesAt(AllowEntries(userId, entries[1..]), q);
        if entries[0].path == q {
          var first := [AllowEntry(userId, entries[0])];
          assert AclAt(next, q) == AclAt(acls, q) + first;
          assert AclAt(acls, q) + first + tail == AclAt(acls, q) + (first + tail);
        } else {
          assert AclAt(next, q) == AclAt(acls, q);
          assert [] + tail == tail;
        }
      }
    }
  }

  /** Splitting off the first config entry: its allow entry comes first among those on its path. */
  lemma StageStep(userId: string, entries: seq<PathPrivileges>)
    requires |entries| > 0
    ensures forall q :: (EntriesAt(AllowEntries(userId, entries), q)
                         == (if entries[0].path == q then [AllowEntry(userId, entries[0])] else [])
                            + EntriesAt(AllowEntries(userId, entries[1..]), q))
  {
    var all := AllowEntries(userId, entries);
    assert all[1..] == AllowEntries(userId, entries[1..]);
  }

  /**
   When the ACL step commits: the administrative resolver was obtained, no entry
   threw, at least one entry was staged (so the session has changes), and the
   commit succeeded.
   */
  predicate AclCommits(config: Config, fault: AclFault) {
    && |config.privileges| > 0
    && match fault
       case NoAclFault => true
       case EntryFault(k) => k >= |config.privileges|
       case AclLoginFault => false
       case AclCommitFault => false
  }

  /**
   setupAcl: either every configured path's list gains the user's allow entries,
   in iteration order, or nothing is committed at all; every failure is absorbed.
   */
  function SetupAcl(store: Store, config: Config, fault: AclFault): (r: Effect)
    ensures r.store.users == store.users && r.store.mappings == store.mappings
    ensures AclCommits(config, fault) ==>
      && (forall q :: AclAt(r.store.acl, q)
                      == AclAt(store.acl, q) + EntriesAt(AllowEntries(config.systemUserId, config.privileges), q))
      && r.log == [AclCommitted(AllowEntries(config.systemUserId, config.privileges))]
    ensures !AclCommits(config, fault) ==> r.store == store && r.log == []
  {
    if fault == AclLoginFault then Effect(store, [])
    else
      match StageAcls(store.acl, config.systemUserId, config.privileges, fault, 0)
      case None => Effect(store, [])                          // abandoned: nothing staged is committed
      case Some(staged) =>
        if |config.privileges| == 0 then Effect(store, [])   // no changes: no commit
        else if fault == AclCommitFault then Effect(store, [])
        else Effect(store.(acl := staged), [AclCommitted(AllowEntries(config.systemUserId, config.privileges))])
  }

  /**
   setupSystemUser: when creation reports success, registers the mapping, applies
   the ACL and caches the id, whatever the mapping and ACL steps did; otherwise
   changes nothing.
   */
  function SetupSystemUser(p: Provider, config: Config, ownerSymbolicName: string, o: Outcomes): (r: Setup)
    ensures var id := config.systemUserId;
      !(id !in p.store.users && o.user == NoUserFault) ==> r == Setup(p, [])
    ensures var id := config.systemUserId;
      id !in p.store.users && o.user == NoUserFault ==>
        && r.provider.createdUsers == p.createdUsers + {id}
        && r.provider.store.users == p.store.users + {id}
        && r.provider.store.mappings
           == p.store.mappings + (if o.mappingFails then [] else [MappingValue(ownerSymbolicName, id)])
        && (forall q :: AclAt(r.provider.store.acl, q)
                        == AclAt(p.store.acl, q)
                           + (if AclCommits(config, o.acl) then EntriesAt(AllowEntries(id, config.privileges), q) else []))
        && r.log
           == [UserCreated(id)]
              + (if o.mappingFails then [] else [MappingRegistered(MappingValue(ownerSymbolicName, id))])
              + (if AclCommits(config, o.acl) then [AclCommitted(AllowEntries(id, config.privileges))] else [])
              + [UserCached(id)]
    ensures forall x :: (CreationCount(r.log, x)
                         == if x == config.systemUserId && x !in p.store.users && o.user == NoUserFault then 1 else 0)
  {
    var id := config.systemUserId;
    var c := CreateServiceUser(p.store, id, o.user);
    if !c.created then Setup(p.(store := c.store), c.log)
    else
      var m := CreateServiceMapperConfig(c.store, ownerSymbolicName, id, o.mappingFails);
      var a := SetupAcl(m.store, config, o.acl);
      var log := c.log + m.log + a.log + [UserCached(id)];
      CreationCountAppend(c.log + m.log + a.log, [UserCached(id)]);
      CreationCountAppend(c.log + m.log, a.log);
      CreationCountAppend(c.log, m.log);
      CreationCountSingleton(UserCreated(id));
      CreationCountSingleton(UserCached(id));
      CreationCountSingleton(MappingRegistered(MappingValue(ownerSymbolicName, id)));
      CreationCountSingleton(AclCommitted(AllowEntries(id, config.privileges)));
      Setup(Provider(p.createdUsers + {id}, a.store), log)
  }

  /**
   getSystemUserResourceResolver: runs the setup unless the id is cached, then asks
   the factory for a resolver whose subservice is the system user id. The factory
   stands for the resolver factory the caller passes, including its login failure.
   */
  function GetSystemUserResourceResolver<H>(
    p: Provider, factory: map<string, string> -> H, config: Config, ownerSymbolicName: string, o: Outcomes
  ): (r: Invocation<H>)
    ensures r.resolver == factory(map[SUBSERVICE := config.systemUserId])
    ensures |r.log| > 0 && r.log[|r.log| - 1] == ResolverRequested(map[SUBSERVICE := config.systemUserId])
    ensures config.systemUserId in p.createdUsers ==>
      r.provider == p && r.log == [ResolverRequested(map[SUBSERVICE := config.systemUserId])]
    ensures p.createdUsers <= r.provider.createdUsers <= p.createdUsers + {config.systemUserId}
    ensures config.systemUserId !in p.createdUsers ==>
      (config.systemUserId in r.provider.createdUsers
       <==> config.systemUserId !in p.store.users && o.user == NoUserFault)
    ensures forall x :: x in r.provider.createdUsers ==> x in p.createdUsers || CreationCount(r.log, x) > 0
    ensures p.store.users <= r.provider.store.users
    ensures Consistent(p) ==> Consistent(r.provider)
    ensures forall x :: CreationCount(r.log, x) == if x in r.provider.store.users && x !in p.store.users then 1 else 0
    ensures forall x :: x in r.provider.store.users ==> x in p.store.users || x == config.systemUserId
  {
    var id := config.systemUserId;
    var s := if id !in p.createdUsers then SetupSystemUser(p, config, ownerSymbolicName, o) else Setup(p, []);
    var authInfo := map[SUBSERVICE := id];
    var log := s.log + [ResolverRequested(authInfo)];
    CreationCountAppend(s.log, [ResolverRequested(authInfo)]);
    CreationCountSingleton(ResolverRequested(authInfo));
    Invocation(s.provider, log, factory(authInfo))
  }
}

=== FILE: wrappers.dfy ===
/** Optional value, for a search or a step that may produce nothing. */
module Wrappers {

  datatype Option<+T> = None | Some(value: T)
}
